=== FILE: README.md ===
# Face-match and criminal-record routes, modelled in Dafny

This project models the decision logic of a small web service with two route
files. The first is `routes/image.py`, a face-recognition endpoint. It checks
the upload's extension, saves the upload, and extracts a face embedding. It then
scans a store of precomputed embeddings for the most similar one, applies a
0.65 confidence threshold, splits the winning `FOLDER__FILENAME` key, and
returns the matched person with their reference image. The second is
`routes/master_db.py`, three criminal-record handlers (add, list, delete). They
gate on a `username` header, validate the form, compress and upload images, and
talk to a document store.

Every operation is a pure function. Its collaborators are parameters:

- the similarity measure is a function `(Embedding, Embedding) -> real`;
- the embedding extractor is an `Extraction` value;
- saving, file existence and file reading are function-typed fields;
- the JPEG encoder is an encoded-size function of dimensions and quality;
- the uploader and the document store return a result or the text of the
  exception they raise;
- the id validator (`ObjectId.is_valid`) is a predicate on the id string.

Each handler returns its reply together with an ordered list of `effects`: the
collaborator calls that change or record something outside the handler. These
are saving the upload, extracting its embedding, reading the matched reference
image, uploading a compressed image, store operations and log entries.
File-existence tests, similarity scores and image opening or encoding are
queries and are not listed. That list is how "rejected before any side effect"
and "nothing is logged" are stated.

Modules: `Wrappers` (Option/Result), `Text` (ASCII lower-casing, last
occurrence of a character, separator search), `FaceMatch` (scores, best-match
scan, key split, threshold), `ImageRoute` (extension check and the recognize
endpoint), `ImageShrink` (the compression loop), `MasterDb` (the three
record handlers).

Notes on the code's behaviour:

- A face that is not found makes the extractor (`DeepFace.represent` with
  `enforce_detection=True`) raise. The code turns that into a 500
  "DeepFace error". Only an empty list of representations gives the 400
  "No face detected". The model does the same.
- The threshold is the constant 0.65 in the code.
- The key convention does not round-trip for every folder name without `__`.
  A folder name ending in `_` shifts the first separator:
  folder `a_` with file `b` gives key `a___b`, which splits as `a` / `_b`
  (`FaceMatch.TrailingUnderscoreBreaksRoundTrip`). The round trip holds exactly
  when `folder + "_"` contains no `__` (`FaceMatch.JoinSplitRoundTrip`).
- A key with no separator splits into the whole key and an empty file name
  (`FaceMatch.SplitKey`). In the code the reference path is then the folder
  itself, which is not a regular file, so such a match gets the "file not
  found" warning. The model does not assume this: the file-existence test is
  a parameter, and nothing constrains its answer for an empty file name.

## Model

| member | source | states |
|---|---|---|
| Text.LastIndexOf | routes/image.py:32 | gives no position exactly when the name has no `.`; otherwise the position of a `.` with no `.` after it, which is where `rsplit(".", 1)` cuts |
| Text.FindSeparator | routes/image.py:86 | gives the leftmost position at or after `from` where `__` starts, or nothing when no `__` starts there; this is where `split("__", 1)` cuts |
| ImageRoute.AllowedFile | routes/image.py:16-32 | a filename is accepted iff it ends in `.` followed by `png`, `jpg` or `jpeg` in any ASCII case; there is no other way in |
| ImageRoute.AcceptedHasExtension | routes/image.py:31-32 | a name whose text after the last dot lower-cases to an allowed extension ends in a dot followed by that extension, in its original case |
| ImageRoute.ExtensionIsLast | routes/image.py:31-32 | when a name ends in a dot and an allowed extension in any ASCII case, that dot is the last one, so `rsplit(".", 1)[1]` is exactly that extension |
| ImageRoute.OtherNamesRefused | routes/image.py:31-32 | a name with no dot, or whose last extension does not lower-case to an allowed one, does not end in a dot and an allowed extension in any case |
| ImageRoute.AcceptedExamples | routes/image.py:31-32 | `a.tar.PNG` and `photo.Jpeg` are accepted: only the last extension counts, case-insensitively |
| ImageRoute.RefusedExtension | routes/image.py:31-32 | a name whose text after the last dot is not an allowed extension in any case is refused, whatever comes before that dot |
| ImageRoute.RefusedExamples | routes/image.py:31-32 | `png` (no dot) and `a.` (empty extension) are refused |
| ImageRoute.RefusedOtherExamples | routes/image.py:31-32 | `a.gif` and `a.png.gif` are refused: only the last extension counts |
| FaceMatch.BestMatchIsUnique | routes/image.py:68-76 | at most one (key, score) pair is the sentinel-bounded maximum whose key belongs to the first entry reaching it, so the tie-break leaves no freedom |
| FaceMatch.ScanExtendsBestMatch | routes/image.py:72-76 | continuing the strict-`>` scan over more entries, from a best match of the entries seen so far, gives a best match of all of them |
| FaceMatch.FindBestMatch | routes/image.py:68-76 | the scan from key `None` and score -1.0 ends with the maximum of -1.0 and all scores; the key is `None` iff no score exceeds -1.0, and is otherwise the first key reaching the maximum |
| FaceMatch.FirstMaximumWins | routes/image.py:74-76 | when entry `i` is the first to reach the maximum and beats -1.0, its key and score are chosen, even if later entries tie with it |
| FaceMatch.NothingBeatsSentinel | routes/image.py:68-76 | when no score exceeds -1.0 (an empty store included), the scan ends with no key and score -1.0 |
| FaceMatch.SplitKey | routes/image.py:84-89 | a key with `__` is the folder, `__` and the file name joined, with no `__` in the folder or at its end; a key without `__` gives the whole key as the folder and an empty file name |
| FaceMatch.JoinSplitRoundTrip | routes/image.py:26-26 | splitting `folder + "__" + file` gives back `(folder, file)` whenever `folder + "_"` contains no `__` |
| FaceMatch.TrailingUnderscoreBreaksRoundTrip | routes/image.py:86-86 | folder `a_` and file `b` do not survive the round trip: the key splits as `a` and `_b` |
| FaceMatch.Decide | routes/image.py:78-89 | a score strictly below 0.65 is unknown and carries the raw score; a score of 0.65 or more with a key is identified with the split key and the same score |
| FaceMatch.ScanDecision | routes/image.py:68-89 | after the scan the missing-key case never arises; the answer is unknown iff every entry scores below 0.65; otherwise it names the split key of the first entry reaching the maximum score, which is at least 0.65, with that score |
| ImageRoute.Respond | routes/image.py:78-114 | a score below 0.65 gives "not in our Criminal Database" with the raw score; at 0.65 or more with no key, the 500 of splitting `None`; with a key, the person is the key's folder with the best score: a missing reference file gives the warning with no image and reads nothing (never an error), a readable file is attached with exactly the bytes read, and a failed read gives a 500 |
| ImageRoute.Recognize | routes/image.py:35-114 | a refused filename gives 400 and calls nothing; any other name is saved first; a save failure gives 500 after the save only; an extractor exception gives 500 and an empty face list gives 400 "No face detected", both after save and extraction |
| ImageRoute.RecognizeDecision | routes/image.py:52-114 | once a face is extracted, the reply is "not in the database" iff all scores are under 0.65, with the best raw score; otherwise the match is the first entry reaching the maximum, and the reply names its folder with its score, with the image read from disk, with the warning when the file is missing, or a 500 when reading fails |
| ImageRoute.NoCandidateNotInDatabase | routes/image.py:68-82 | an empty store, or one whose scores never exceed -1.0, gives "not in the database" with confidence -1.0 |
| ImageRoute.RejectionIgnoresCollaborators | routes/image.py:37-41 | a refused filename gets the same 400 whatever the store and collaborators are, with no save or extraction |
| ImageShrink.ScaleSide | routes/master_db.py:68-68 | `int(d*0.9)` is strictly smaller than any positive `d`, and stays at least 90 when `d` is over 100 |
| ImageShrink.ShrinkFrom | routes/master_db.py:67-72 | the loop ends (the width falls each round); on exit the size is at most 50 KiB or a side is at most 100; if it ran at all, both sides fell, neither is under 90, and the size is that of the quality-60 encoding |
| ImageShrink.Shrink | routes/master_db.py:61-72 | after the quality-70 encoding and the loop, the image fits in 50 KiB or has a side of at most 100, and is no larger than the thumbnail; either the loop did not run (the thumbnail with its quality-70 size), or the width went down and the size is that of the quality-60 encoding at the final dimensions |
| ImageShrink.ShrinkLoop | routes/master_db.py:67-72 | the while loop computes the same dimensions and size as `Shrink`, and leaves its condition false |
| ImageShrink.ShrinkFromReachesFirstExit | routes/master_db.py:67-72 | from any round the condition has held up to, the loop ends at the first later round where the condition fails |
| ImageShrink.ShrinkIsFirstExit | routes/master_db.py:67-72 | the loop runs exactly as many rounds as its condition allows, with dimensions scaled by 0.9 per round |
| MasterDb.UsernameOrAbort | routes/master_db.py:33-37 | succeeds iff the `username` header is present and non-empty, giving its value; otherwise the 400 abort "Missing required header: username" |
| MasterDb.HasRequiredFields | routes/master_db.py:49-52 | holds iff all nine fields (`Family name`, `Forename`, `Folder Name`, `Gender`, `Date of birth`, `Place of birth`, `Nationality`, `Distinguishing marks and characteristics`, `Charges`) are keys of the form |
| MasterDb.PreparedDims | routes/master_db.py:60-74 | an image that opens is uploaded at dimensions no larger than its thumbnail, with a side of at most 100, or unshrunk with a quality-70 encoding of at most 50 KiB, or narrower than the thumbnail with a quality-60 encoding of at most 50 KiB; an opening failure passes its error through |
| MasterDb.UploadOne | routes/master_db.py:60-75 | an opening failure is reported as is, without calling the uploader; an image that opens gets the uploader's answer for that image at the dimensions where the compression loop leaves its thumbnail |
| MasterDb.PreparedDimsIsLoopExit | routes/master_db.py:61-74 | for every image that opens, the upload dimensions are the thumbnail scaled by 0.9 exactly n times, where n is the first round count at which the loop condition fails |
| MasterDb.UploadOneAtLoopExit | routes/master_db.py:61-75 | for every image that opens, its URL or error is the uploader's answer for the thumbnail scaled by that first-exit round count |
| MasterDb.UploadAll | routes/master_db.py:57-77 | succeeds iff every image uploads; then there is exactly one URL per image, in upload order, each the URL its own upload gave; in every case the upload calls are those of the first images, in order, each at its own prepared dimensions, one per image on success |
| MasterDb.UploadAllStopsAtFirstFailure | routes/master_db.py:59-77 | a failed run stops at the first image that cannot be uploaded and reports its error; the uploads made are those of the earlier images, plus that image when it reached the uploader, and none after it |
| MasterDb.StoredDocument | routes/master_db.py:46-79 | the record has the form's keys plus `images`; `images` is the URL list, whatever the form sent; every other field is the form value unchanged |
| MasterDb.AddCriminal | routes/master_db.py:41-91 | a missing username gives the abort and no effect; a 400 "Missing required fields" happens iff a listed field is absent, with no effect; otherwise an upload failure gives 500 "Image upload failed: ..." after the uploads only; an insert failure gives 500 with its error after the uploads and the insert; a successful insert gives 200 with "Criminal record added successfully", the new id and the URLs, after the uploads, the insert of the form-plus-URLs record and the log entry ("Criminal record added", ip, username) |
| MasterDb.BuildFilter | routes/master_db.py:100-107 | the filter has a case-insensitive `Family name` entry iff `family_name` is given and non-empty, the same for `Forename`, and no other entry |
| MasterDb.GetCriminals | routes/master_db.py:95-117 | a missing username gives the abort and no effect; otherwise the filter is built from the arguments and queried; a successful query gives 200 with exactly its records, then the log entry ("Retrieved list of criminals", ip, username); a raising query gives 500 with its error and no log |
| MasterDb.DeleteCriminal | routes/master_db.py:121-137 | a missing username gives the abort, an invalid id gives 400 "Invalid ID format", neither deletes; for a valid id the delete runs; a count of 0 gives exactly 404 "Criminal record not found" with no log; a positive count gives 200 "Criminal record deleted successfully" after the delete and the log entry naming the id; a raising delete gives 500 with its error and no log |
| MasterDb.AddStoresUploadedUrls | routes/master_db.py:49-89 | a 200 from add means every field was present, each image's URL is the one its upload gave, and the inserted record is the form plus those URLs |
| MasterDb.UploadFailurePreventsInsert | routes/master_db.py:55-77 | if any image fails to open or upload (an encoder that raises counts as an opening failure), the reply is 500 and the only effects are uploads, so nothing is inserted or logged |
| MasterDb.NotFoundLogsNothing | routes/master_db.py:126-134 | a 404 from delete means the id was valid and the store deleted nothing; no log entry is written |

## Left out

- Cosine similarity and DeepFace embedding extraction are parameters.
  Similarity is any function returning a real, so NaN scores are not modelled.
  A dimension mismatch between the query and stored vectors raises inside the
  loop; that raise is not modelled.
- Loading `face_embeddings.pkl` is not modelled. The store is a sequence of
  (key, embedding) pairs in dictionary insertion order.
- Saving the upload, `os.path.isfile`, reading the reference image and base64
  encoding are not modelled. They are filesystem and library work: the model
  returns the raw bytes, and `MatchedPath` stands for
  `os.path.join(DATASET_ROOT, folder, filename)` without the textual join.
- The text of exceptions is whatever the collaborator reports. The handlers
  add only the source's fixed prefixes.
- Python's `str.lower` is modelled as ASCII lower-casing. For membership in
  `{png, jpg, jpeg}` this gives the same answer: no non-ASCII character
  lower-cases to an ASCII letter of those words.
- A missing upload filename (`None`) is not modelled. Filenames are strings.
- Header names are case-insensitive in Flask. The model takes headers already
  looked up by their exact name.
- Mongo `insert_one`/`find`/`delete_one`, the `$regex` matching semantics,
  `ObjectId.is_valid` and the `_id`-to-string conversion of listed records are
  collaborators. They are not modelled.
- PIL `open`/`thumbnail`/`resize`, JPEG encoding and the Cloudinary upload are
  collaborators: `openThumbnail` gives the thumbnail's dimensions,
  `encodedSize` the byte count, `upload` the URL. Only the dimension
  arithmetic of the loop is modelled.
- MasterDb.PreparedDims: `encodedSize` cannot fail, so a JPEG save that
  raises (an RGBA image, for example) has no case of its own. An
  `openThumbnail` failure stands for every exception raised while an image is
  opened, resized or encoded.
- `ImageShrink.ScaleSide` computes `(9*d)/10` in exact arithmetic. It matches
  the source's `int(d*0.9)` in double precision for every side length below
  2^31, which covers every side a PIL image can have. For far larger values
  the two can differ by one (at d = 2^51 + 3, for example).
- `OperationLogger` is modelled only as `Log` effects. A logger that raises
  (a 500 after the insert or delete) is not modelled.
- Environment and config loading, CORS, the 404/500 handlers, the home route
  and server start-up in `app.py` are framework wiring. They are not modelled.
- The form is a map from field name to its first value, as `to_dict()` gives.
  Repeated form fields are not modelled.

=== FILE: face_match.dfy ===
/** The face-match decision of the recognition route: score every stored
    embedding against the query, keep the first key with the highest score,
    reject scores under the threshold, and split the winning key into folder
    and file name.

    The similarity measure (cosine similarity in the source) is a parameter:
    nothing here depends on how it is computed, only on the reals it returns. */
module FaceMatch {
  import opened Wrappers
  import opened Text

  type Embedding = seq<real>

  /** One entry of the embedding store, in the store's iteration order. Keys
      have the form FOLDER__FILENAME. */
  datatype StoredFace = StoredFace(key: string, embedding: Embedding)

  /** A store key together with its similarity to the query. */
  datatype Scored = Scored(key: string, score: real)

  /** The scan's state: the key chosen so far, if any, and its score. */
  datatype Match = Match(key: Option<string>, score: real)

  /** Starting score of the scan; no key is chosen while it stands. */
  const NoMatchScore: real := -1.0

  /** Lowest score that still identifies a person. */
  const Threshold: real := 0.65

  function ScoreAll(query: Embedding, store: seq<StoredFace>,
                    similarity: (Embedding, Embedding) -> real): (s: seq<Scored>)
    ensures |s| == |store|
    ensures forall i :: 0 <= i < |store| ==>
              s[i] == Scored(store[i].key, similarity(query, store[i].embedding))
  {
    seq(|store|, i requires 0 <= i < |store| =>
      Scored(store[i].key, similarity(query, store[i].embedding)))
  }

  // ---------------------------------------------------------------------
  // What the best match is, independently of how the scan finds it
  // ---------------------------------------------------------------------

  /** Entry `i` carries `m`'s key and score, and every earlier entry scores
      strictly less: `i` is the first position reaching the maximum. */
  ghost predicate FirstAttains(entries: seq<Scored>, i: int, m: Match)
  {
    && 0 <= i < |entries|
    && m.key == Some(entries[i].key)
    && entries[i].score == m.score
    && (forall j :: 0 <= j < i ==> entries[j].score < m.score)
  }

  /** `m.score` is the maximum of the sentinel and all scores; the key is
      absent exactly when no score beats the sentinel, and otherwise belongs
      to the first entry reaching the maximum. */
  ghost predicate IsBestMatch(entries: seq<Scored>, m: Match)
  {
    && NoMatchScore <= m.score
    && (forall j :: 0 <= j < |entries| ==> entries[j].score <= m.score)
    && (m.key.None? ==> m.score == NoMatchScore)
    && (m.key.Some? ==> NoMatchScore < m.score && exists i :: FirstAttains(entries, i, m))
  }

  /** At most one result meets the description: ties go to the first key. */
  lemma BestMatchIsUnique(entries: seq<Scored>, m1: Match, m2: Match)
    requires IsBestMatch(entries, m1) && IsBestMatch(entries, m2)
    ensures m1 == m2
  {
    if m1.key.Some? {
      var i1 :| FirstAttains(entries, i1, m1);
      assert m2.key.Some? by {
        assert entries[i1].score <= m2.score;
      }
      var i2 :| FirstAttains(entries, i2, m2);
      assert m1.score == m2.score by {
        assert entries[i1].score <= m2.score;
        assert entries[i2].score <= m1.score;
      }
      assert i1 == i2;
    }
  }

  // ---------------------------------------------------------------------
  // The scan
  // ---------------------------------------------------------------------

  /** One loop iteration: a strictly greater score replaces the best so far. */
  function Step(best: Match, e: Scored): Match
  {
    if e.score > best.score then Match(Some(e.key), e.score) else best
  }

  function ScanFrom(best: Match, entries: seq<Scored>): Match
    decreases |entries|
  {
    if entries == [] then best else ScanFrom(Step(best, entries[0]), entries[1..])
  }

  /** Scanning the rest of the entries from a best match of those already
      seen yields a best match of all of them. */
  lemma {:induction false} ScanExtendsBestMatch(seen: seq<Scored>, rest: seq<Scored>, best: Match)
    requires IsBestMatch(seen, best)
    ensures IsBestMatch(seen + rest, ScanFrom(best, rest))
    decreases |rest|
  {
    if rest == [] {
      assert seen + rest == seen;
    } else {
      var e := rest[0];
      var next := Step(best, e);
      var seen' := seen + [e];
      assert IsBestMatch(seen', next) by {
        if e.score > best.score {
          assert FirstAttains(seen', |seen|, next);
        } else if best.key.Some? {
          var i :| FirstAttains(seen, i, best);
          assert FirstAttains(seen', i, next);
        }
      }
      assert seen' + rest[1..] == seen + rest;
      ScanExtendsBestMatch(seen', rest[1..], next);
    }
  }

  /** The loop over the store, starting from no key and the sentinel score. */
  function FindBestMatch(entries: seq<Scored>): (m: Match)
    ensures IsBestMatch(entries, m)
  {
    var start := Match(None, NoMatchScore);
    ScanExtendsBestMatch([], entries, start);
    assert [] + entries == entries;
    ScanFrom(start, entries)
  }

  /** The first entry reaching the maximum, above the sentinel, is chosen even
      when later entries tie with it. */
  lemma FirstMaximumWins(entries: seq<Scored>, i: nat)
    requires i < |entries| && NoMatchScore < entries[i].score
    requires forall j :: 0 <= j < i ==> entries[j].score < entries[i].score
    requires forall j :: 0 <= j < |entries| ==> entries[j].score <= entries[i].score
    ensures FindBestMatch(entries) == Match(Some(entries[i].key), entries[i].score)
  {
    var m := Match(Some(entries[i].key), entries[i].score);
    assert FirstAttains(entries, i, m);
    BestMatchIsUnique(entries, m, FindBestMatch(entries));
  }

  /** With no score above the sentinel (in particular with an empty store),
      no key is chosen and the sentinel score is kept. */
  lemma NothingBeatsSentinel(entries: seq<Scored>)
    requires forall j :: 0 <= j < |entries| ==> entries[j].score <= NoMatchScore
    ensures FindBestMatch(entries) == Match(None, NoMatchScore)
  {
    BestMatchIsUnique(entries, Match(None, NoMatchScore), FindBestMatch(entries));
  }

  // ---------------------------------------------------------------------
  // Store keys
  // ---------------------------------------------------------------------

  datatype KeyParts = KeyParts(folder: string, filename: string)

  /** Splits at the first separator; a key without one is all folder name. */
  function SplitKey(key: string): (p: KeyParts)
    ensures HasSeparator(key) ==> key == p.folder + Separator + p.filename
    ensures HasSeparator(key) ==> !HasSeparator(p.folder + "_")
    ensures !HasSeparator(key) ==> p == KeyParts(key, "")
  {
    match FindSeparator(key, 0)
    case None => KeyParts(key, "")
    case Some(i) =>
      var p := KeyParts(key[..i], key[i + 2..]);
      assert key == p.folder + Separator + p.filename;
      assert !HasSeparator(p.folder + "_") by {
        forall j | SeparatorAt(p.folder + "_", j)
          ensures false
        {
          assert SeparatorAt(key, j);
        }
      }
      p
  }

  /** Joining a folder and file name with the separator and splitting again
      gives them back, provided the folder neither contains the separator nor
      ends in an underscore (otherwise the first separator starts earlier). */
  lemma JoinSplitRoundTrip(folder: string, filename: string)
    requires !HasSeparator(folder + "_")
    ensures SplitKey(folder + Separator + filename) == KeyParts(folder, filename)
  {
    var key := folder + Separator + filename;
    assert SeparatorAt(key, |folder|);
    forall j | 0 <= j < |folder|
      ensures !SeparatorAt(key, j)
    {
      assert !SeparatorAt(folder + "_", j);
      assert key[j] == (folder + "_")[j] && key[j + 1] == (folder + "_")[j + 1];
    }
    assert FindSeparator(key, 0) == Some(|folder|);
    assert key[..|folder|] == folder;
    assert key[|folder| + 2..] == filename;
  }

  /** A folder name free of the separator is not enough for the round trip:
      "a_" joined with "b" splits as ("a", "_b"). */
  lemma TrailingUnderscoreBreaksRoundTrip()
    ensures SplitKey("a_" + Separator + "b") == KeyParts("a", "_b")
  {
    assert !HasSeparator("a" + "_") by {
      forall j | SeparatorAt("a_", j) ensures false {}
    }
    JoinSplitRoundTrip("a", "_b");
    assert "a_" + Separator + "b" == "a" + Separator + "_b";
  }

  // ---------------------------------------------------------------------
  // Threshold policy
  // ---------------------------------------------------------------------

  /** Outcome of the threshold test. `KeyMissing` stands for a score at or
      above the threshold with no key, where splitting `None` would raise. */
  datatype Decision =
    | Unknown(score: real)
    | Identified(parts: KeyParts, score: real)
    | KeyMissing

  function Decide(m: Match): (d: Decision)
    ensures d.Unknown? <==> m.score < Threshold
    ensures d.Unknown? ==> d.score == m.score
    ensures d.Identified? <==> Threshold <= m.score && m.key.Some?
    ensures d.Identified? ==> d.parts == SplitKey(m.key.value) && d.score == m.score
  {
    if m.score < Threshold then Unknown(m.score)
    else match m.key
      case None => KeyMissing
      case Some(k) => Identified(SplitKey(k), m.score)
  }

  /** After the scan the decision is never `KeyMissing`; it is `Unknown`
      exactly when every entry scores below the threshold, and otherwise it
      names the folder of the first entry reaching the maximum, with that
      entry's score. */
  lemma ScanDecision(entries: seq<Scored>)
    ensures !Decide(FindBestMatch(entries)).KeyMissing?
    ensures Decide(FindBestMatch(entries)).Unknown? <==>
              forall j :: 0 <= j < |entries| ==> entries[j].score < Threshold
    ensures Decide(FindBestMatch(entries)).Identified? ==>
              && FindBestMatch(entries).key.Some?
              && Decide(FindBestMatch(entries))
                   == Identified(SplitKey(FindBestMatch(entries).key.value), FindBestMatch(entries).score)
    ensures Decide(FindBestMatch(entries)).Identified? ==>
              exists i :: 0 <= i < |entries| && Threshold <= entries[i].score
                && (forall j :: 0 <= j < i ==> entries[j].score < entries[i].score)
                && (forall j :: 0 <= j < |entries| ==> entries[j].score <= entries[i].score)
                && Decide(FindBestMatch(entries)) == Identified(SplitKey(entries[i].key), entries[i].score)
  {
    var m := FindBestMatch(entries);
    if m.key.Some? {
      var i :| FirstAttains(entries, i, m);
      if Threshold <= m.score {
        assert Decide(m) == Identified(SplitKey(entries[i].key), entries[i].score);
      }
    }
  }
}

=== FILE: image_route.dfy ===
/** The recognition endpoint: extension check, upload save, embedding
    extraction, best-match decision and response shaping.

    The collaborators the endpoint calls (saving the upload, the face
    embedding extractor, the similarity measure, the file-existence test and
    reading the matched reference image) are fields of `Collaborators`; each
    reports failure as the text of the exception it would raise. */
module ImageRoute {
  import opened Wrappers
  import opened Text
  import opened FaceMatch

  const AllowedExtensions: set<string> := {"png", "jpg", "jpeg"}

  /** The text after the last dot, when there is a dot: what
      `rsplit(".", 1)[1]` gives. */
  function LastExtension(filename: string): Option<string>
  {
    match LastIndexOf(filename, '.')
    case None => None
    case Some(i) => Some(filename[i + 1..])
  }

  /** `filename` ends in a dot followed by `ext`, ignoring ASCII case. */
  ghost predicate EndsWithExtension(filename: string, ext: string)
  {
    && |ext| < |filename|
    && filename[|filename| - |ext| - 1] == '.'
    && Lower(filename[|filename| - |ext|..]) == ext
  }

  /** The filename has a dot, and the text after its last dot, lower-cased,
      is an allowed extension. Equivalently, it ends in a dot and one of the
      allowed extensions in any mix of upper and lower case. */
  function AllowedFile(filename: string): (r: bool)
    ensures r <==> exists ext :: ext in AllowedExtensions && EndsWithExtension(filename, ext)
  {
    var last := LastExtension(filename);
    if last.Some? && Lower(last.value) in AllowedExtensions then
      AcceptedHasExtension(filename);
      true
    else
      OtherNamesRefused(filename);
      false
  }

  lemma LowerKeepsDots(s: string, ext: string)
    requires Lower(s) == ext && ext in AllowedExtensions
    ensures forall i :: 0 <= i < |s| ==> s[i] != '.'
  {
    forall i | 0 <= i < |s|
      ensures s[i] != '.'
    {
      assert LowerChar(s[i]) == ext[i];
    }
  }

  /** A name whose last extension lower-cases to an allowed one ends in a
      dot and that extension. */
  lemma AcceptedHasExtension(filename: string)
    requires LastExtension(filename).Some? && Lower(LastExtension(filename).value) in AllowedExtensions
    ensures EndsWithExtension(filename, Lower(LastExtension(filename).value))
  {
  }

  /** When a name ends in a dot and an allowed extension (in any case), that
      dot is the last one, so the extension is the last extension. */
  lemma ExtensionIsLast(filename: string, ext: string)
    requires ext in AllowedExtensions && EndsWithExtension(filename, ext)
    ensures LastExtension(filename) == Some(filename[|filename| - |ext|..])
  {
    var k := |filename| - |ext| - 1;
    var suffix := filename[k + 1..];
    LowerKeepsDots(suffix, ext);
    forall j | k < j < |filename|
      ensures filename[j] != '.'
    {
      assert filename[j] == suffix[j - k - 1];
    }
    assert LastIndexOf(filename, '.') == Some(k);
  }

  /** A name without a dot, or whose last extension is not an allowed one,
      does not end in a dot and an allowed extension either. */
  lemma OtherNamesRefused(filename: string)
    requires !(LastExtension(filename).Some? && Lower(LastExtension(filename).value) in AllowedExtensions)
    ensures forall ext :: ext in AllowedExtensions ==> !EndsWithExtension(filename, ext)
  {
    forall ext | ext in AllowedExtensions && EndsWithExtension(filename, ext)
      ensures false
    {
      ExtensionIsLast(filename, ext);
    }
  }

  /** Only the last extension counts, and its case does not matter. */
  lemma AcceptedExamples()
    ensures AllowedFile("a.tar.PNG")
    ensures AllowedFile("photo.Jpeg")
  {
    assert Lower("a.tar.PNG"[6..]) == "png";
    assert EndsWithExtension("a.tar.PNG", "png");
    assert Lower("photo.Jpeg"[6..]) == "jpeg";
    assert EndsWithExtension("photo.Jpeg", "jpeg");
  }

  /** Whatever precedes it, a last extension that is not an allowed one in
      any case makes the name refused. */
  lemma RefusedExtension(prefix: string, ext: string)
    requires '.' !in ext && Lower(ext) !in AllowedExtensions
    ensures !AllowedFile(prefix + "." + ext)
  {
    var f := prefix + "." + ext;
    forall j | |prefix| < j < |f|
      ensures f[j] != '.'
    {
      assert f[j] == ext[j - |prefix| - 1];
    }
    assert f[|prefix|] == '.';
    assert LastIndexOf(f, '.') == Some(|prefix|);
    assert f[|prefix| + 1..] == ext;
    assert LastExtension(f) == Some(ext);
  }

  /** A name without a dot and a bare trailing dot are refused. */
  lemma RefusedExamples()
    ensures !AllowedFile("png")
    ensures !AllowedFile("a.")
  {
    assert "png" == ['p', 'n', 'g'];
    assert LastIndexOf("png", '.') == None;
    assert Lower("") == "";
    RefusedExtension("a", "");
    assert "a" + "." + "" == "a.";
  }

  /** Another extension is refused, and only the last extension counts: an
      allowed one earlier in the name does not help. */
  lemma RefusedOtherExamples()
    ensures !AllowedFile("a" + "." + "gif")
    ensures !AllowedFile("a.png" + "." + "gif")
  {
    assert Lower("gif") == "gif";
    RefusedExtension("a", "gif");
    RefusedExtension("a.png", "gif");
  }

  // ---------------------------------------------------------------------
  // The endpoint
  // ---------------------------------------------------------------------

  /** What the embedding extractor returns: one representation per detected
      face, or the text of the exception it raised. */
  datatype Extraction = Represented(faces: seq<Embedding>) | ExtractorRaised(message: string)

  /** The matched reference image: DATASET_ROOT / folder / filename. */
  datatype MatchedPath = MatchedPath(folder: string, filename: string)

  datatype Collaborators = Collaborators(
    saveUpload: string -> Option<string>,            // Some(message) when saving raises
    extraction: Extraction,
    similarity: (Embedding, Embedding) -> real,
    isFile: MatchedPath -> bool,
    readImage: MatchedPath -> Result<seq<bv8>, string>)

  /** Collaborator calls, in the order the endpoint makes them. */
  datatype Effect = SaveUpload(filename: string) | ExtractEmbedding | ReadMatched(path: MatchedPath)

  /** The reference image sent back with an identification: its bytes (sent
      base64-encoded), or the path that was not found, which the response
      reports as a warning with no image. */
  datatype ImagePayload = Attached(bytes: seq<bv8>) | MissingOnDisk(path: MatchedPath)

  /** `NotInDatabase` is the reply whose `person` field reads
      "not in our Criminal Database". */
  datatype Response =
    | Failed(status: nat, detail: string)
    | NotInDatabase(confidence: real)
    | Recognized(person: string, confidence: real, image: ImagePayload)

  datatype Outcome = Outcome(response: Response, effects: seq<Effect>)

  const InvalidFormatDetail: string := "Invalid file format. Only JPG, JPEG, PNG allowed."
  const NoFaceDetail: string := "No face detected in the image."
  const SaveErrorPrefix: string := "File save error: "
  const ExtractorErrorPrefix: string := "DeepFace error: "
  const ReadErrorPrefix: string := "Error reading matched image: "
  /** Detail of the server error raised by splitting a missing key. */
  const MissingKeyDetail: string := "Internal server error"

  /** The response for a best match, after the embedding has been computed. */
  function Respond(best: Match, env: Collaborators, prior: seq<Effect>): (o: Outcome)
    ensures best.score < Threshold ==> o == Outcome(NotInDatabase(best.score), prior)
    ensures o.response.Recognized? ==>
              best.key.Some? && Threshold <= best.score
              && o.response.person == SplitKey(best.key.value).folder
              && o.response.confidence == best.score
    ensures o.response.Recognized? && o.response.image.MissingOnDisk? ==>
              !env.isFile(o.response.image.path) && o.effects == prior
    ensures Threshold <= best.score && best.key.None? ==> o == Outcome(Failed(500, MissingKeyDetail), prior)
    ensures Threshold <= best.score && best.key.Some? ==>
              var p := SplitKey(best.key.value);
              var path := MatchedPath(p.folder, p.filename);
              && (!env.isFile(path) ==>
                    o == Outcome(Recognized(p.folder, best.score, MissingOnDisk(path)), prior))
              && (env.isFile(path) && env.readImage(path).Success? ==>
                    o == Outcome(Recognized(p.folder, best.score, Attached(env.readImage(path).value)),
                                 prior + [ReadMatched(path)]))
              && (env.isFile(path) && env.readImage(path).Failure? ==>
                    o == Outcome(Failed(500, ReadErrorPrefix + env.readImage(path).error),
                                 prior + [ReadMatched(path)]))
  {
    match Decide(best)
    case Unknown(score) => Outcome(NotInDatabase(score), prior)
    case KeyMissing => Outcome(Failed(500, MissingKeyDetail), prior)
    case Identified(parts, score) =>
      var path := MatchedPath(parts.folder, parts.filename);
      if !env.isFile(path) then
        Outcome(Recognized(parts.folder, score, MissingOnDisk(path)), prior)
      else
        match env.readImage(path)
        case Failure(e) => Outcome(Failed(500, ReadErrorPrefix + e), prior + [ReadMatched(path)])
        case Success(bytes) => Outcome(Recognized(parts.folder, score, Attached(bytes)), prior + [ReadMatched(path)])
  }

  function Recognize(filename: string, store: seq<StoredFace>, env: Collaborators): (o: Outcome)
    ensures !AllowedFile(filename) ==> o == Outcome(Failed(400, InvalidFormatDetail), [])
    ensures AllowedFile(filename) ==> |o.effects| > 0 && o.effects[0] == SaveUpload(filename)
    ensures o.response.Failed? ==> o.response.status == 400 || o.response.status == 500
    ensures AllowedFile(filename) && env.saveUpload(filename).Some? ==>
              o == Outcome(Failed(500, SaveErrorPrefix + env.saveUpload(filename).value), [SaveUpload(filename)])
    ensures AllowedFile(filename) && env.saveUpload(filename).None? && env.extraction.ExtractorRaised? ==>
              o == Outcome(Failed(500, ExtractorErrorPrefix + env.extraction.message),
                           [SaveUpload(filename), ExtractEmbedding])
    ensures AllowedFile(filename) && env.saveUpload(filename).None? && env.extraction == Represented([]) ==>
              o == Outcome(Failed(400, NoFaceDetail), [SaveUpload(filename), ExtractEmbedding])
  {
    if !AllowedFile(filename) then
      Outcome(Failed(400, InvalidFormatDetail), [])
    else match env.saveUpload(filename)
      case Some(e) => Outcome(Failed(500, SaveErrorPrefix + e), [SaveUpload(filename)])
      case None =>
        var prior := [SaveUpload(filename), ExtractEmbedding];
        match env.extraction
        case ExtractorRaised(e) => Outcome(Failed(500, ExtractorErrorPrefix + e), prior)
        case Represented(faces) =>
          if faces == [] then Outcome(Failed(400, NoFaceDetail), prior)
          else Respond(FindBestMatch(ScoreAll(faces[0], store, env.similarity)), env, prior)
  }

  /** The scores the endpoint compares once extraction has produced a face. */
  function QueryScores(store: seq<StoredFace>, env: Collaborators): seq<Scored>
    requires env.extraction.Represented? && env.extraction.faces != []
  {
    ScoreAll(env.extraction.faces[0], store, env.similarity)
  }

  /** Once a face is extracted: the answer is "not in the database" with the
      best raw score exactly when every stored score is under the threshold.
      Otherwise the best match is the first entry reaching the maximum, and
      the reply names its folder with its score: with the image read from
      disk, with a warning and no image when the file is missing, or a 500
      when reading fails. The missing-key error never occurs. */
  lemma RecognizeDecision(filename: string, store: seq<StoredFace>, env: Collaborators)
    requires AllowedFile(filename) && env.saveUpload(filename).None?
    requires env.extraction.Represented? && env.extraction.faces != []
    ensures var o := Recognize(filename, store, env);
            var scores := QueryScores(store, env);
            var best := FindBestMatch(scores);
            var prior := [SaveUpload(filename), ExtractEmbedding];
            && (o.response.NotInDatabase? <==> forall j :: 0 <= j < |scores| ==> scores[j].score < Threshold)
            && (o.response.NotInDatabase? ==> o == Outcome(NotInDatabase(best.score), prior))
            && (Threshold <= best.score ==>
                  && best.key.Some?
                  && (exists i :: FirstAttains(scores, i, best))
                  && var p := SplitKey(best.key.value);
                     var path := MatchedPath(p.folder, p.filename);
                     && (!env.isFile(path) ==>
                           o == Outcome(Recognized(p.folder, best.score, MissingOnDisk(path)), prior))
                     && (env.isFile(path) && env.readImage(path).Success? ==>
                           o == Outcome(Recognized(p.folder, best.score, Attached(env.readImage(path).value)),
                                        prior + [ReadMatched(path)]))
                     && (env.isFile(path) && env.readImage(path).Failure? ==>
                           o == Outcome(Failed(500, ReadErrorPrefix + env.readImage(path).error),
                                        prior + [ReadMatched(path)])))
  {
    ScanDecision(QueryScores(store, env));
  }

  /** An empty store, or one whose scores never beat the sentinel, answers
      "not in the database" with confidence -1.0. */
  lemma NoCandidateNotInDatabase(filename: string, store: seq<StoredFace>, env: Collaborators)
    requires AllowedFile(filename) && env.saveUpload(filename).None?
    requires env.extraction.Represented? && env.extraction.faces != []
    requires forall j :: 0 <= j < |store| ==>
               env.similarity(env.extraction.faces[0], store[j].embedding) <= NoMatchScore
    ensures Recognize(filename, store, env).response == NotInDatabase(NoMatchScore)
  {
    NothingBeatsSentinel(QueryScores(store, env));
  }

  /** A refused filename is answered without calling any collaborator, so the
      answer is the same whatever they would have done. */
  lemma RejectionIgnoresCollaborators(filename: string, store1: seq<StoredFace>, env1: Collaborators,
                                      store2: seq<StoredFace>, env2: Collaborators)
    requires !AllowedFile(filename)
    ensures Recognize(filename, store1, env1) == Recognize(filename, store2, env2)
    ensures Recognize(filename, store1, env1).effects == []
  {
  }
}

=== FILE: image_shrink.dfy ===
/** The compression loop applied to every uploaded criminal image: while the
    JPEG encoding is over 50 KiB and both sides are over 100 pixels, scale
    both sides by 0.9 and encode again.

    The JPEG encoder is a parameter: `encodedSize(dims, quality)` is the byte
    count of the image encoded at those dimensions and that quality. */
module ImageShrink {

  datatype Dims = Dims(width: nat, height: nat)

  /** Dimensions and encoded size of the image at one point of the loop. */
  datatype Shrunk = Shrunk(dims: Dims, bytes: nat)

  const MaxBytes: nat := 50 * 1024
  const MinSide: nat := 100
  /** JPEG quality of the first encoding, before the loop. */
  const InitialQuality: nat := 70
  /** JPEG quality of the encodings inside the loop. */
  const LoopQuality: nat := 60

  /** `int(d * 0.9)`: the double nearest 0.9 lies just above it, so for any
      side length an image can have the truncated product is `9d/10`
      rounded down. */
  function ScaleSide(d: nat): (r: nat)
    ensures d > 0 ==> r < d
    ensures d > MinSide ==> r >= 90
  {
    (9 * d) / 10
  }

  function Scale(d: Dims): Dims
  {
    Dims(ScaleSide(d.width), ScaleSide(d.height))
  }

  /** The loop condition. */
  predicate KeepShrinking(s: Shrunk)
  {
    s.bytes > MaxBytes && s.dims.width > MinSide && s.dims.height > MinSide
  }

  /** The loop from state `s` on. Every round shrinks the width, which is why
      the loop ends. On exit the image fits or one side is at most 100; if it
      ran at all, both sides went down and neither went below 90. */
  function ShrinkFrom(s: Shrunk, encodedSize: (Dims, nat) -> nat): (r: Shrunk)
    ensures !KeepShrinking(r)
    ensures r == s || (r.dims.width < s.dims.width && r.dims.height < s.dims.height
                       && r.dims.width >= 90 && r.dims.height >= 90
                       && r.bytes == encodedSize(r.dims, LoopQuality))
    decreases s.dims.width
  {
    if KeepShrinking(s) then
      var d := Scale(s.dims);
      ShrinkFrom(Shrunk(d, encodedSize(d, LoopQuality)), encodedSize)
    else s
  }

  /** Encodes the thumbnail once at the initial quality, then runs the loop. */
  function Shrink(start: Dims, encodedSize: (Dims, nat) -> nat): (r: Shrunk)
    ensures r.bytes <= MaxBytes || r.dims.width <= MinSide || r.dims.height <= MinSide
    ensures r.dims.width <= start.width && r.dims.height <= start.height
    ensures r == Shrunk(start, encodedSize(start, InitialQuality))
            || (r.dims.width < start.width && r.bytes == encodedSize(r.dims, LoopQuality))
  {
    ShrinkFrom(Shrunk(start, encodedSize(start, InitialQuality)), encodedSize)
  }

  /** The while loop as written, one assignment per source statement. */
  method ShrinkLoop(start: Dims, encodedSize: (Dims, nat) -> nat) returns (dims: Dims, bytes: nat)
    ensures Shrunk(dims, bytes) == Shrink(start, encodedSize)
    ensures bytes <= MaxBytes || dims.width <= MinSide || dims.height <= MinSide
  {
    dims := start;
    bytes := encodedSize(start, InitialQuality);
    while bytes > MaxBytes && dims.width > MinSide && dims.height > MinSide
      invariant ShrinkFrom(Shrunk(dims, bytes), encodedSize) == Shrink(start, encodedSize)
      decreases dims.width
    {
      dims := Scale(dims);
      bytes := encodedSize(dims, LoopQuality);
    }
  }

  // ---------------------------------------------------------------------
  // The loop counted in rounds
  // ---------------------------------------------------------------------

  /** The dimensions after `k` rounds. */
  ghost function ScaledTimes(d: Dims, k: nat): Dims
    decreases k
  {
    if k == 0 then d else Scale(ScaledTimes(d, k - 1))
  }

  /** The loop state after `k` rounds, had the condition held throughout. */
  ghost function StateAfter(start: Dims, k: nat, encodedSize: (Dims, nat) -> nat): Shrunk
  {
    var d := ScaledTimes(start, k);
    Shrunk(d, if k == 0 then encodedSize(d, InitialQuality) else encodedSize(d, LoopQuality))
  }

  /** The loop stops after the first round count at which its condition
      fails, and not before. */
  ghost predicate FirstExit(start: Dims, k: nat, encodedSize: (Dims, nat) -> nat)
  {
    && !KeepShrinking(StateAfter(start, k, encodedSize))
    && forall j :: 0 <= j < k ==> KeepShrinking(StateAfter(start, j, encodedSize))
  }

  lemma {:induction false} ShrinkFromReachesFirstExit(start: Dims, k: nat, encodedSize: (Dims, nat) -> nat)
    requires forall j :: 0 <= j < k ==> KeepShrinking(StateAfter(start, j, encodedSize))
    ensures exists n :: k <= n && FirstExit(start, n, encodedSize)
              && ShrinkFrom(StateAfter(start, k, encodedSize), encodedSize) == StateAfter(start, n, encodedSize)
    decreases StateAfter(start, k, encodedSize).dims.width
  {
    var s := StateAfter(start, k, encodedSize);
    if KeepShrinking(s) {
      assert StateAfter(start, k + 1, encodedSize) == Shrunk(Scale(s.dims), encodedSize(Scale(s.dims), LoopQuality));
      ShrinkFromReachesFirstExit(start, k + 1, encodedSize);
    } else {
      assert FirstExit(start, k, encodedSize);
    }
  }

  /** `Shrink` returns the state after exactly as many rounds as the loop
      condition allows. */
  lemma ShrinkIsFirstExit(start: Dims, encodedSize: (Dims, nat) -> nat)
    ensures exists n :: FirstExit(start, n, encodedSize) && Shrink(start, encodedSize) == StateAfter(start, n, encodedSize)
  {
    ShrinkFromReachesFirstExit(start, 0, encodedSize);
  }
}

=== FILE: master_db.dfy ===
/** The criminal-record routes: add a record with compressed uploaded images,
    list records with an optional name filter, delete a record by id.

    Each handler is a function of the request and of its collaborators (the
    image codec and uploader, the document store, the id validator). The
    `effects` of an outcome list, in order, the collaborator calls that change
    something outside the handler or record it: uploads, store operations and
    audit-log entries. */
module MasterDb {
  import opened Wrappers
  import opened ImageShrink

  /** Request headers, already looked up by their exact name. */
  type Headers = map<string, string>

  /** A field of a stored record: a form string, or the list of image URLs. */
  datatype Value = Str(text: string) | UrlList(urls: seq<string>)

  type Document = map<string, Value>

  /** `{"$regex": pattern, "$options": "i"}`: a case-insensitive match. */
  datatype Pattern = CaseInsensitive(pattern: string)

  type Filter = map<string, Pattern>

  datatype LogEntry = LogEntry(message: string, ip: string, username: string)

  datatype ImageFile = ImageFile(name: string, content: seq<bv8>)

  datatype Effect =
    | Upload(folder: string, image: ImageFile, dims: Dims)
    | Insert(doc: Document)
    | Find(filter: Filter)
    | Delete(id: string)
    | Log(entry: LogEntry)

  datatype Body =
    | Aborted(description: string)
    | Error(message: string)
    | Added(message: string, id: string, imageUrls: seq<string>)
    | Records(docs: seq<Document>)
    | Message(text: string)

  datatype Reply = Reply(status: nat, body: Body)

  datatype Outcome = Outcome(reply: Reply, effects: seq<Effect>)

  const MissingUsername: string := "Missing required header: username"
  const MissingFields: string := "Missing required fields"
  const UploadFailedPrefix: string := "Image upload failed: "
  const AddedMessage: string := "Criminal record added successfully"
  const AddedLog: string := "Criminal record added"
  const RetrievedLog: string := "Retrieved list of criminals"
  const InvalidId: string := "Invalid ID format"
  const NotFound: string := "Criminal record not found"
  const DeletedMessage: string := "Criminal record deleted successfully"
  const DeletedLogPrefix: string := "Deleted criminal record with ID "
  const ImageFolderPrefix: string := "master_database/"

  const RequiredFields: seq<string> :=
    ["Family name", "Forename", "Folder Name", "Gender", "Date of birth",
     "Place of birth", "Nationality", "Distinguishing marks and characteristics", "Charges"]

  // ---------------------------------------------------------------------
  // Request gates
  // ---------------------------------------------------------------------

  /** The `username` header, or the 400 abort when it is absent or empty. */
  function UsernameOrAbort(headers: Headers): (r: Result<string, Reply>)
    ensures r.Success? <==> "username" in headers && headers["username"] != ""
    ensures r.Success? ==> r.value == headers["username"]
    ensures r.Failure? ==> r.error == Reply(400, Aborted(MissingUsername))
  {
    if "username" in headers && headers["username"] != "" then Success(headers["username"])
    else Failure(Reply(400, Aborted(MissingUsername)))
  }

  /** The address logged for the caller: the forwarding header if sent. */
  function ClientIp(headers: Headers, remoteAddr: string): string
  {
    if "X-Forwarded-For" in headers then headers["X-Forwarded-For"] else remoteAddr
  }

  /** Every field of the required list is in the form. */
  function HasRequiredFields(form: map<string, string>): (r: bool)
    ensures r <==> && "Family name" in form && "Forename" in form && "Folder Name" in form
                   && "Gender" in form && "Date of birth" in form && "Place of birth" in form
                   && "Nationality" in form && "Distinguishing marks and characteristics" in form
                   && "Charges" in form
  {
    forall f :: f in RequiredFields ==> f in form
  }

  // ---------------------------------------------------------------------
  // Image upload
  // ---------------------------------------------------------------------

  /** The image codec and uploader. `openThumbnail` opens the upload and
      fits it into 500x500, giving its dimensions; `upload` sends the encoded
      image to a folder and gives its secure URL. Failures carry the text of
      the exception raised. */
  datatype ImageCodec = ImageCodec(
    openThumbnail: ImageFile -> Result<Dims, string>,
    encodedSize: (ImageFile, Dims, nat) -> nat,
    upload: (string, ImageFile, Dims) -> Result<string, string>)

  /** The encoded size of one image, as a function of dimensions and quality. */
  function Encoder(image: ImageFile, codec: ImageCodec): (Dims, nat) -> nat
  {
    (d: Dims, q: nat) => codec.encodedSize(image, d, q)
  }

  /** Dimensions at which an image is uploaded, after the compression loop:
      no larger than the thumbnail, with a side of at most 100 or an encoding
      of at most 50 KiB (at quality 70 if the loop did not run, at quality 60
      if it did). Opening failures pass through unchanged.
      `PreparedDimsIsLoopExit` says which dimensions they are. */
  function PreparedDims(image: ImageFile, codec: ImageCodec): (r: Result<Dims, string>)
    ensures codec.openThumbnail(image).Failure? ==> r == Failure(codec.openThumbnail(image).error)
    ensures codec.openThumbnail(image).Success? ==>
              var thumb := codec.openThumbnail(image).value;
              && r.Success?
              && r.value.width <= thumb.width && r.value.height <= thumb.height
              && (|| r.value.width <= MinSide || r.value.height <= MinSide
                  || (r.value == thumb && codec.encodedSize(image, thumb, InitialQuality) <= MaxBytes)
                  || (r.value.width < thumb.width && codec.encodedSize(image, r.value, LoopQuality) <= MaxBytes))
  {
    match codec.openThumbnail(image)
    case Failure(e) => Failure(e)
    case Success(thumb) =>
      Success(Shrink(thumb, Encoder(image, codec)).dims)
  }

  /** The URL one image ends up at, or the error that stopped it: the
      uploader's answer for the image at the dimensions where the compression
      loop stops, or the opening error, in which case nothing is uploaded. */
  function UploadOne(folder: string, image: ImageFile, codec: ImageCodec): (r: Result<string, string>)
    ensures codec.openThumbnail(image).Failure? ==> r == Failure(codec.openThumbnail(image).error)
    ensures codec.openThumbnail(image).Success? ==>
              var thumb := codec.openThumbnail(image).value;
              r == codec.upload(folder, image, Shrink(thumb, Encoder(image, codec)).dims)
  {
    match PreparedDims(image, codec)
    case Failure(e) => Failure(e)
    case Success(d) => codec.upload(folder, image, d)
  }

  /** An image that opens is uploaded at its thumbnail scaled by 0.9 exactly
      as many times as the loop condition allows. */
  lemma PreparedDimsIsLoopExit(image: ImageFile, codec: ImageCodec)
    requires codec.openThumbnail(image).Success?
    ensures var thumb := codec.openThumbnail(image).value;
            exists n :: FirstExit(thumb, n, Encoder(image, codec))
                     && PreparedDims(image, codec) == Success(ScaledTimes(thumb, n))
  {
    ShrinkIsFirstExit(codec.openThumbnail(image).value, Encoder(image, codec));
  }

  /** The uploader is called with the image at the dimensions where the
      compression loop stops, and its answer is the image's URL or error. */
  lemma UploadOneAtLoopExit(folder: string, image: ImageFile, codec: ImageCodec)
    requires codec.openThumbnail(image).Success?
    ensures var thumb := codec.openThumbnail(image).value;
            exists n :: FirstExit(thumb, n, Encoder(image, codec))
                     && UploadOne(folder, image, codec) == codec.upload(folder, image, ScaledTimes(thumb, n))
  {
    PreparedDimsIsLoopExit(image, codec);
  }

  datatype UploadRun = UploadRun(urls: Result<seq<string>, string>, effects: seq<Effect>)

  /** `effects` are uploads of the first images, in order, each to `folder`
      at the image's compressed dimensions. */
  ghost predicate UploadsInOrder(folder: string, images: seq<ImageFile>, codec: ImageCodec, effects: seq<Effect>)
  {
    && |effects| <= |images|
    && forall i :: 0 <= i < |effects| ==>
         && PreparedDims(images[i], codec).Success?
         && effects[i] == Upload(folder, images[i], PreparedDims(images[i], codec).value)
  }

  /** Image `k` is the first one that cannot be uploaded. */
  ghost predicate FailsFirstAt(folder: string, images: seq<ImageFile>, codec: ImageCodec, k: int)
  {
    && 0 <= k < |images|
    && UploadOne(folder, images[k], codec).Failure?
    && forall i :: 0 <= i < k ==> UploadOne(folder, images[i], codec).Success?
  }

  /** Uploads the images in order, stopping at the first failure. On success
      there is one URL per image, in upload order, and one upload each. */
  function UploadAll(folder: string, images: seq<ImageFile>, codec: ImageCodec): (r: UploadRun)
    ensures r.urls.Success? <==> forall i :: 0 <= i < |images| ==> UploadOne(folder, images[i], codec).Success?
    ensures r.urls.Success? ==> |r.urls.value| == |images|
    ensures r.urls.Success? ==> forall i :: 0 <= i < |images| ==>
              UploadOne(folder, images[i], codec) == Success(r.urls.value[i])
    ensures r.urls.Success? ==> |r.effects| == |images|
    ensures forall e :: e in r.effects ==> e.Upload? && e.folder == folder
    ensures UploadsInOrder(folder, images, codec, r.effects)
    decreases |images|
  {
    if images == [] then UploadRun(Success([]), [])
    else
      match PreparedDims(images[0], codec)
      case Failure(e) => UploadRun(Failure(e), [])
      case Success(d) =>
        var attempt := Upload(folder, images[0], d);
        match codec.upload(folder, images[0], d)
        case Failure(e) => UploadRun(Failure(e), [attempt])
        case Success(url) =>
          var rest := UploadAll(folder, images[1..], codec);
          var urls := if rest.urls.Success? then Success([url] + rest.urls.value) else rest.urls;
          assert forall i :: 1 <= i < |images| ==> images[i] == images[1..][i - 1];
          UploadRun(urls, [attempt] + rest.effects)
  }

  /** A failed upload run stopped at the first image that could not be
      uploaded: it reports that image's error, and the uploads it made are
      those of the images before it, plus that image itself when it got as far
      as the uploader. */
  lemma {:induction false} UploadAllStopsAtFirstFailure(folder: string, images: seq<ImageFile>, codec: ImageCodec)
    requires UploadAll(folder, images, codec).urls.Failure?
    ensures var r := UploadAll(folder, images, codec);
            exists k :: && FailsFirstAt(folder, images, codec, k)
                        && r.urls.error == UploadOne(folder, images[k], codec).error
                        && |r.effects| == (if PreparedDims(images[k], codec).Success? then k + 1 else k)
    decreases |images|
  {
    var r := UploadAll(folder, images, codec);
    if UploadOne(folder, images[0], codec).Failure? {
      assert FailsFirstAt(folder, images, codec, 0);
    } else {
      var tail := images[1..];
      var rest := UploadAll(folder, tail, codec);
      UploadAllStopsAtFirstFailure(folder, tail, codec);
      var k :| && FailsFirstAt(folder, tail, codec, k)
               && rest.urls.error == UploadOne(folder, tail[k], codec).error
               && |rest.effects| == (if PreparedDims(tail[k], codec).Success? then k + 1 else k);
      assert images[k + 1] == tail[k];
      assert forall i :: 1 <= i < |images| ==> images[i] == tail[i - 1];
      assert FailsFirstAt(folder, images, codec, k + 1);
    }
  }

  /** The record stored: the form fields unchanged, with `images` set to
      the uploaded URLs in place of any submitted `images` field. */
  function StoredDocument(form: map<string, string>, urls: seq<string>): (doc: Document)
    ensures doc.Keys == form.Keys + {"images"}
    ensures doc["images"] == UrlList(urls)
    ensures forall k :: k in form && k != "images" ==> doc[k] == Str(form[k])
  {
    (map k | k in form :: Str(form[k]))["images" := UrlList(urls)]
  }

  // ---------------------------------------------------------------------
  // Handlers
  // ---------------------------------------------------------------------

  function AddCriminal(headers: Headers, remoteAddr: string, form: map<string, string>,
                       images: seq<ImageFile>, codec: ImageCodec,
                       insert: Document -> Result<string, string>): (o: Outcome)
    ensures UsernameOrAbort(headers).Failure? ==> o == Outcome(Reply(400, Aborted(MissingUsername)), [])
    ensures UsernameOrAbort(headers).Success? ==>
              (o.reply == Reply(400, Error(MissingFields)) <==> !HasRequiredFields(form))
    ensures o.reply.status == 400 ==> o.effects == []
    ensures o.reply.status == 200 ==>
              o.reply.body.Added?
              && |o.reply.body.imageUrls| == |images|
              && Insert(StoredDocument(form, o.reply.body.imageUrls)) in o.effects
              && o.effects[|o.effects| - 1].Log?
    ensures UsernameOrAbort(headers).Success? && HasRequiredFields(form) ==>
              var run := UploadAll(ImageFolderPrefix + form["Folder Name"], images, codec);
              && (run.urls.Failure? ==>
                    o == Outcome(Reply(500, Error(UploadFailedPrefix + run.urls.error)), run.effects))
              && (run.urls.Success? ==>
                    var doc := StoredDocument(form, run.urls.value);
                    && (insert(doc).Failure? ==>
                          o == Outcome(Reply(500, Error(insert(doc).error)), run.effects + [Insert(doc)]))
                    && (insert(doc).Success? ==>
                          o == Outcome(Reply(200, Added(AddedMessage, insert(doc).value, run.urls.value)),
                                       run.effects + [Insert(doc),
                                         Log(LogEntry(AddedLog, ClientIp(headers, remoteAddr), headers["username"]))])))
  {
    match UsernameOrAbort(headers)
    case Failure(reply) => Outcome(reply, [])
    case Success(username) =>
      var ip := ClientIp(headers, remoteAddr);
      if !HasRequiredFields(form) then Outcome(Reply(400, Error(MissingFields)), [])
      else
        assert "Folder Name" in RequiredFields;
        var run := if images == [] then UploadRun(Success([]), [])
                   else UploadAll(ImageFolderPrefix + form["Folder Name"], images, codec);
        match run.urls
        case Failure(e) => Outcome(Reply(500, Error(UploadFailedPrefix + e)), run.effects)
        case Success(urls) =>
          var doc := StoredDocument(form, urls);
          match insert(doc)
          case Failure(e) => Outcome(Reply(500, Error(e)), run.effects + [Insert(doc)])
          case Success(id) =>
            Outcome(Reply(200, Added(AddedMessage, id, urls)),
                    run.effects + [Insert(doc), Log(LogEntry(AddedLog, ip, username))])
  }

  /** Filter on family name and forename, each only when given and non-empty. */
  function BuildFilter(familyName: Option<string>, forename: Option<string>): (f: Filter)
    ensures "Family name" in f <==> familyName.Some? && familyName.value != ""
    ensures "Forename" in f <==> forename.Some? && forename.value != ""
    ensures "Family name" in f ==> f["Family name"] == CaseInsensitive(familyName.value)
    ensures "Forename" in f ==> f["Forename"] == CaseInsensitive(forename.value)
    ensures f.Keys <= {"Family name", "Forename"}
  {
    var byFamily: Filter :=
      if familyName.Some? && familyName.value != "" then map["Family name" := CaseInsensitive(familyName.value)]
      else map[];
    if forename.Some? && forename.value != "" then byFamily["Forename" := CaseInsensitive(forename.value)]
    else byFamily
  }

  /** Python's `args.get(name)`. */
  function Arg(args: map<string, string>, name: string): Option<string>
  {
    if name in args then Some(args[name]) else None
  }

  function GetCriminals(headers: Headers, remoteAddr: string, args: map<string, string>,
                        find: Filter -> Result<seq<Document>, string>): (o: Outcome)
    ensures UsernameOrAbort(headers).Failure? ==> o == Outcome(Reply(400, Aborted(MissingUsername)), [])
    ensures UsernameOrAbort(headers).Success? ==>
              |o.effects| > 0 && o.effects[0] == Find(BuildFilter(Arg(args, "family_name"), Arg(args, "forename")))
    ensures o.reply.status == 200 <==> o.reply.body.Records?
    ensures o.reply.status == 200 ==>
              Success(o.reply.body.docs) == find(BuildFilter(Arg(args, "family_name"), Arg(args, "forename")))
    ensures UsernameOrAbort(headers).Success? ==>
              var filter := BuildFilter(Arg(args, "family_name"), Arg(args, "forename"));
              && (find(filter).Success? ==>
                    o == Outcome(Reply(200, Records(find(filter).value)),
                                 [Find(filter), Log(LogEntry(RetrievedLog, ClientIp(headers, remoteAddr), headers["username"]))]))
              && (find(filter).Failure? ==>
                    o == Outcome(Reply(500, Error(find(filter).error)), [Find(filter)]))
  {
    match UsernameOrAbort(headers)
    case Failure(reply) => Outcome(reply, [])
    case Success(username) =>
      var ip := ClientIp(headers, remoteAddr);
      var filter := BuildFilter(Arg(args, "family_name"), Arg(args, "forename"));
      match find(filter)
      case Failure(e) => Outcome(Reply(500, Error(e)), [Find(filter)])
      case Success(records) =>
        Outcome(Reply(200, Records(records)), [Find(filter), Log(LogEntry(RetrievedLog, ip, username))])
  }

  function DeleteCriminal(headers: Headers, remoteAddr: string, id: string,
                          isValidId: string -> bool,
                          deleteOne: string -> Result<nat, string>): (o: Outcome)
    ensures UsernameOrAbort(headers).Failure? ==> o == Outcome(Reply(400, Aborted(MissingUsername)), [])
    ensures UsernameOrAbort(headers).Success? && !isValidId(id) ==> o == Outcome(Reply(400, Error(InvalidId)), [])
    ensures UsernameOrAbort(headers).Success? && isValidId(id) ==>
              (o.reply.status == 404 <==> deleteOne(id) == Success(0))
    ensures o.reply.status == 404 ==> o.effects == [Delete(id)]
    ensures UsernameOrAbort(headers).Success? && isValidId(id) && deleteOne(id) == Success(0) ==>
              o == Outcome(Reply(404, Error(NotFound)), [Delete(id)])
    ensures o.reply.status == 200 ==>
              o.effects == [Delete(id), Log(LogEntry(DeletedLogPrefix + id, ClientIp(headers, remoteAddr), headers["username"]))]
    ensures UsernameOrAbort(headers).Success? && isValidId(id) && deleteOne(id).Success? && deleteOne(id).value > 0 ==>
              o == Outcome(Reply(200, Message(DeletedMessage)),
                           [Delete(id), Log(LogEntry(DeletedLogPrefix + id, ClientIp(headers, remoteAddr), headers["username"]))])
    ensures UsernameOrAbort(headers).Success? && isValidId(id) && deleteOne(id).Failure? ==>
              o == Outcome(Reply(500, Error(deleteOne(id).error)), [Delete(id)])
  {
    match UsernameOrAbort(headers)
    case Failure(reply) => Outcome(reply, [])
    case Success(username) =>
      var ip := ClientIp(headers, remoteAddr);
      if !isValidId(id) then Outcome(Reply(400, Error(InvalidId)), [])
      else match deleteOne(id)
        case Failure(e) => Outcome(Reply(500, Error(e)), [Delete(id)])
        case Success(count) =>
          if count == 0 then Outcome(Reply(404, Error(NotFound)), [Delete(id)])
          else Outcome(Reply(200, Message(DeletedMessage)),
                       [Delete(id), Log(LogEntry(DeletedLogPrefix + id, ip, username))])
  }

  // ---------------------------------------------------------------------
  // Properties across handlers
  // ---------------------------------------------------------------------

  /** A successful add stores exactly the form plus the URLs of the images,
      one per image in upload order, and only after every upload succeeded. */
  lemma AddStoresUploadedUrls(headers: Headers, remoteAddr: string, form: map<string, string>,
                              images: seq<ImageFile>, codec: ImageCodec,
                              insert: Document -> Result<string, string>)
    requires AddCriminal(headers, remoteAddr, form, images, codec, insert).reply.status == 200
    ensures var o := AddCriminal(headers, remoteAddr, form, images, codec, insert);
            && HasRequiredFields(form)
            && (forall i :: 0 <= i < |images| ==>
                  UploadOne(ImageFolderPrefix + form["Folder Name"], images[i], codec)
                    == Success(o.reply.body.imageUrls[i]))
            && insert(StoredDocument(form, o.reply.body.imageUrls)) == Success(o.reply.body.id)
  {
    assert "Folder Name" in RequiredFields;
  }

  /** If any image fails to upload, nothing is inserted and the reply is 500. */
  lemma UploadFailurePreventsInsert(headers: Headers, remoteAddr: string, form: map<string, string>,
                                    images: seq<ImageFile>, codec: ImageCodec,
                                    insert: Document -> Result<string, string>, i: nat)
    requires UsernameOrAbort(headers).Success? && HasRequiredFields(form)
    requires i < |images|
    requires UploadOne(ImageFolderPrefix + form["Folder Name"], images[i], codec).Failure?
    ensures var o := AddCriminal(headers, remoteAddr, form, images, codec, insert);
            && o.reply.status == 500
            && (forall e :: e in o.effects ==> e.Upload?)
  {
  }

  /** A 404 from delete happens after the store call and logs nothing. */
  lemma NotFoundLogsNothing(headers: Headers, remoteAddr: string, id: string,
                            isValidId: string -> bool, deleteOne: string -> Result<nat, string>)
    requires DeleteCriminal(headers, remoteAddr, id, isValidId, deleteOne).reply.status == 404
    ensures forall e :: e in DeleteCriminal(headers, remoteAddr, id, isValidId, deleteOne).effects ==> !e.Log?
    ensures deleteOne(id) == Success(0) && isValidId(id)
  {
  }
}

=== FILE: text.dfy ===
/** The few string operations the routes rely on: ASCII lower-casing, the
    position of the last occurrence of a character, and the search for the
    double-underscore key separator. */
module Text {
  import opened Wrappers

  /** Lower-cases an ASCII capital letter; every other character is kept. */
  function LowerChar(c: char): char
  {
    if 'A' <= c <= 'Z' then (c as int - 'A' as int + 'a' as int) as char else c
  }

  function Lower(s: string): (r: string)
    ensures |r| == |s|
    ensures forall i :: 0 <= i < |s| ==> r[i] == LowerChar(s[i])
  {
    seq(|s|, i requires 0 <= i < |s| => LowerChar(s[i]))
  }

  /** Position of the last `c` in `s`, if `c` occurs at all. */
  function LastIndexOf(s: string, c: char): (r: Option<nat>)
    ensures r.None? <==> forall i :: 0 <= i < |s| ==> s[i] != c
    ensures r.Some? ==> r.value < |s| && s[r.value] == c
    ensures r.Some? ==> forall i :: r.value < i < |s| ==> s[i] != c
    decreases |s|
  {
    if s == [] then None
    else if s[|s| - 1] == c then Some(|s| - 1)
    else LastIndexOf(s[..|s| - 1], c)
  }

  /** The separator between folder name and file name in a store key. */
  const Separator: string := "__"

  /** `s` holds the separator at position `i`. */
  predicate SeparatorAt(s: string, i: int)
  {
    0 <= i && i + 1 < |s| && s[i] == '_' && s[i + 1] == '_'
  }

  ghost predicate HasSeparator(s: string)
  {
    exists i :: SeparatorAt(s, i)
  }

  /** Leftmost position at or after `from` where the separator starts. */
  function FindSeparator(s: string, from: nat): (r: Option<nat>)
    ensures r.None? ==> forall i :: from <= i ==> !SeparatorAt(s, i)
    ensures r.Some? ==> from <= r.value && SeparatorAt(s, r.value)
    ensures r.Some? ==> forall i :: from <= i < r.value ==> !SeparatorAt(s, i)
    decreases |s| - from
  {
    if from + 1 >= |s| then None
    else if SeparatorAt(s, from) then Some(from)
    else FindSeparator(s, from + 1)
  }
}

=== FILE: wrappers.dfy ===
/** Failure-compatible wrappers shared by the route modules. */
module Wrappers {

  /** A value that may be absent (Python's `None`). */
  datatype Option<+T> = None | Some(value: T)

  /** Either a value or the text of the exception a collaborator raised. */
  datatype Result<+T, +E> = Success(value: T) | Failure(error: E)
}
